=== FILE: README.md ===
# VIC-20 sound driver: a Dafny model

This project models the core of Furnace's VIC-20 driver
(`src/engine/platform/vic20.cpp`): four channel records (three tone voices
and the noise voice) and the sixteen-byte register pool, driven by three
entry points.

- The **command dispatcher** (`dispatch`) updates the addressed channel
  record and returns a small code. `muteChannel` sets a mute flag and
  requests key-on or key-off, and `reset` rewrites every channel and the
  whole register pool; neither returns anything.
- The **tick** (`tick`) runs once per musical tick, channel by channel. It
  turns macro deltas into volume, base frequency and waveform, then services
  the key-on, key-off and frequency-change requests.
- The **waveform injector** (the register-writing part of `acquire`) runs once
  per output sample. The chip has no waveform register. While a tone voice's
  countdown runs, the injector writes the voice's frequency register three ways:
  first the drain value 126, then six pattern bits in the top bit of the voice's
  load value, and finally `255 - freq`.

Everything is an immutable value: `Channels.Chip` holds the four channels,
the register pool, the mute flags and the `hasWaveWrite` flag. `dispatch`,
`tick` and one output sample are pure functions from one `Chip` to the next.

Two invariants hold throughout:
- `Channels.Valid`: four channels, sixteen bytes, a waveform in 0..15 and a
  frequency in 0..127 on every channel.
- `Channels.Consistent`: every tone voice with a running countdown is
  announced by `hasWaveWrite`.

`Reset` establishes both, and every entry point preserves them.

Two things the driver calls into are passed in as inputs:
- The macro sequencer's report for a channel is a `Channels.Macro` record
  (`hadVol`, `vol`, `hadArp`, `arp`, `arpMode`, `finishedArp`, `hadWave`,
  `wave`, `willArp`).
- The engine's `NOTE_PERIODIC` and `calcFreq` are the function fields of a
  `Channels.Freqs` record, about which nothing is assumed.

Files: `registers.dfy` (pool and `rWrite`), `channel.dfy` (records and
state), `volume.dfy`, `frequency.dfy`, `injector.dfy` (one output sample),
`trace.dfy` (runs of samples after arming), `tick.dfy`, `dispatch.dfy`,
`scenarios.dfy` (properties across entry points).

Behaviour a reader might not expect:
- The output volume is `MIN(vol*env/15, 15)` with C's truncating division. It
  has no lower clamp.
- An arpeggio delta marks the frequency changed even during portamento.
- The volume command does nothing when the value is unchanged.
- A too-high frequency wraps to 0 instead of saturating at 127.
- Muting does not silence an injection already armed. The sample loop never
  looks at the mute flags, so it keeps writing the muted voice's frequency
  register and finally leaves `255 - freq` there.

## Model

| member | source | states |
|---|---|---|
| `Registers.Mask` | src/engine/platform/vic20.cpp:24 | the stored byte is the unique value in 0..255 congruent to the written value modulo 256, i.e. `v & 0xff` in two's complement |
| `Registers.Write` | src/engine/platform/vic20.cpp:24 | `rWrite(a, v)` stores the masked value at `a` and leaves every other register alone |
| `Channels.WriteReg` | src/engine/platform/vic20.cpp:24 | `rWrite` on the driver state: the masked value lands at the address and nothing else in the state changes |
| `Channels.DefaultChannel` | src/engine/platform/vic20.cpp:276-278 | the record every channel is reset to is well formed, inactive, with no request pending and no injection in flight, at volume 15 with no instrument |
| `Registers.Nibble` | src/engine/platform/vic20.cpp:196 | the waveform kept from a value is the unique 0..15 value congruent to it modulo 16 (`& 0x0f`) |
| `Registers.ResetPool` | src/engine/platform/vic20.cpp:275-281 | after reset every register is 0 except the volume register, which is 15 |
| `Volume.CDiv` | src/engine/platform/vic20.cpp:84 | C's `/` on `int`: the quotient bracketed toward zero, for both signs |
| `Volume.OutVol` | src/engine/platform/vic20.cpp:84 | the output volume is at most 15 and at most the scaled volume, and equals one of the two (a minimum, with no lower clamp) |
| `Volume.OutVolInRange` | src/engine/platform/vic20.cpp:84 | for volume and envelope in 0..15, the output volume lies between 0 and the volume |
| `Volume.OutVolFullScale` | src/engine/platform/vic20.cpp:84 | at envelope 15 the output volume is the volume capped at 15; negative volumes pass through |
| `Volume.WriteOutVol` | src/engine/platform/vic20.cpp:88-92 | register 14 receives the output volume only when the channel is unmuted; nothing else changes |
| `Volume.CalcAndWriteOutVol` | src/engine/platform/vic20.cpp:83-86 | only the channel's `outVol` and register 14 (if unmuted) change, to the scaled volume |
| `Frequency.Sar` | src/engine/platform/vic20.cpp:124-125 | `x >> k` on a signed value is the quotient by 2^k rounded toward negative infinity |
| `Frequency.VoiceShiftTable` | src/engine/platform/vic20.cpp:124-125 | voices 0, 1, 2, 3 are shifted right by 2, 1, 0, 1 |
| `Frequency.VoiceShift` | src/engine/platform/vic20.cpp:124-125 | the right shift applied to a voice is at most 2 |
| `Frequency.ClampFreq` | src/engine/platform/vic20.cpp:126-127 | values in 1..127 stay; below 1 become 1; above 127 become 0 |
| `Frequency.DeriveFreq` | src/engine/platform/vic20.cpp:123-127 | the hardware frequency lies in 0..127, so the written `255 - freq` lies in 128..255 |
| `Frequency.DeriveFreqSpec` | src/engine/platform/vic20.cpp:123-127 | the frequency is 0 exactly when the engine value reaches 128 shifted units, 1 exactly when it stays below 2 shifted units, and otherwise the engine value shifted right |
| `Injector.BitArith` | src/engine/platform/vic20.cpp:67 | bit `k` of a byte is its quotient by 2^k modulo 2 |
| `Injector.PatternByteBv` | src/engine/platform/vic20.cpp:67 | for a load value below 0x80, the OR of the load value with `(pattern << shift) & 0x80` keeps the load value in the low seven bits and has pattern bit `7 - shift` on top |
| `Injector.PatternByte` | src/engine/platform/vic20.cpp:67 | the OR of the load value with `(pattern << shift) & 0x80`, at C's `int` width and narrowed to a byte: the low seven bits are the load value's, and the top bit is set when the load value's top bit or bit `7 - shift` of the pattern is |
| `Injector.ByteSplit` | src/engine/platform/vic20.cpp:67 | a byte's value modulo 128 is its low seven bits and its quotient by 128 is its top bit |
| `Injector.PatternByteBits` | src/engine/platform/vic20.cpp:67 | as numbers: the pattern byte is the load value plus 128 times the sampled pattern bit |
| `Injector.InjectValue` | src/engine/platform/vic20.cpp:62-70 | every value the sample loop writes is a byte |
| `Injector.InjectPattern` | src/engine/platform/vic20.cpp:65-67 | for countdowns 16..111 the shift lies in 2..7, the low seven bits equal the voice's `loadFreq` and the top bit is pattern bit `7 - shift` |
| `Injector.InjectPhases` | src/engine/platform/vic20.cpp:52-70 | a countdown of at least 112 writes 126, 16..111 writes a pattern byte sampling only pattern bits 0..5, 0..15 writes `255 - freq`; every pattern is below 64 |
| `Injector.ServiceVoice` | src/engine/platform/vic20.cpp:61-73 | a pending voice gets its phase value and counts down by 4 and raises the flag; an idle voice changes nothing |
| `Injector.InjectStep` | src/engine/platform/vic20.cpp:58-75 | after a sample the flag is up exactly when it was up and some tone voice was pending; the noise voice and registers outside 10..12 never change |
| `Injector.InjectStepVoice` | src/engine/platform/vic20.cpp:61-73 | a serviced voice drops its countdown by exactly 4 and gets the phase value; an unserviced one keeps register and countdown; no other voice field changes |
| `Injector.InjectStepConsistent` | src/engine/platform/vic20.cpp:58-74 | a pending voice stays announced by the flag after a sample |
| `InjectionTrace.Run` | src/engine/platform/vic20.cpp:57-80 | running samples keeps the state well formed, the mute flags and the noise voice unchanged |
| `InjectionTrace.RunAdd` | src/engine/platform/vic20.cpp:57-80 | running `m` then `n` samples is running `m + n` |
| `InjectionTrace.RunFrame` | src/engine/platform/vic20.cpp:61-73 | the sample loop changes no field of a tone voice except its countdown |
| `InjectionTrace.RunConsistent` | src/engine/platform/vic20.cpp:58-74 | pending voices stay announced across any run |
| `InjectionTrace.RunCountdown` | src/engine/platform/vic20.cpp:71 | a pending voice's countdown after `n` samples is its start minus `4n`, until it first drops below zero |
| `InjectionTrace.RunIdle` | src/engine/platform/vic20.cpp:61 | a negative countdown is never serviced again: neither it nor the voice's register moves |
| `InjectionTrace.ArmedServiced` | src/engine/platform/vic20.cpp:57-75 | a voice armed at `137*16-1` is serviced in sample `k` exactly when `k < 548` |
| `InjectionTrace.ArmedWrite` | src/engine/platform/vic20.cpp:61-71 | after sample `k` (1..548) the register holds the phase value for countdown `2191 - 4(k-1)` |
| `InjectionTrace.PatternShift` | src/engine/platform/vic20.cpp:66 | the `j`-th of the 24 pattern samples has countdown in 16..111 and shift `2 + j/4` |
| `InjectionTrace.ArmedDrain` | src/engine/platform/vic20.cpp:62-64 | samples 1..520 after arming write 126 |
| `InjectionTrace.ArmedPattern` | src/engine/platform/vic20.cpp:65-67 | samples 521..544 write the load value with pattern bits 5 down to 0 on top, four samples per bit |
| `InjectionTrace.ArmedFinal` | src/engine/platform/vic20.cpp:68-70 | samples 545..548 write `255 - freq` |
| `InjectionTrace.ArmedDone` | src/engine/platform/vic20.cpp:57-75 | from sample 548 on the countdown is -1 and the register keeps `255 - freq` for ever |
| `InjectionTrace.ArmedInjection` | src/engine/platform/vic20.cpp:57-75 | the whole trace of an armed voice: 520 drain, 24 pattern and 4 final samples, then no more writes |
| `TickScheduler.ApplyMacro` | src/engine/platform/vic20.cpp:101-121 | an arpeggio delta sets the base frequency to `NOTE_PERIODIC(arp)` in absolute mode and `NOTE_PERIODIC(note + arp)` otherwise, except during portamento, where the base frequency stays; a finished absolute arpeggio gives `NOTE_PERIODIC(note)`; either marks the frequency changed; a differing wave delta stores it masked to 4 bits and requests key-on; nothing else changes |
| `TickScheduler.MacroStep` | src/engine/platform/vic20.cpp:96-121 | the volume and macro half of a channel's tick: the record becomes the macro-applied one with the scaled output volume on a volume delta, register 14 gets it only when unmuted, and nothing else changes |
| `TickScheduler.ServiceRequests` | src/engine/platform/vic20.cpp:122-148 | key-on, key-off and frequency change all end cleared; of the voice's record only the frequency and countdown can change besides; the flag is raised exactly when an unmuted tone voice gets key-on; only this voice and its frequency register can change; with no request nothing changes |
| `TickScheduler.ServiceRequestsEffect` | src/engine/platform/vic20.cpp:123-147 | the request block's effect: the new frequency; a muted voice is never armed and only gets 0 on key-off; key-on arms a tone voice at 2191 or writes the noise voice directly; otherwise a changed frequency of an active voice is written; key-off writes 0 last |
| `TickScheduler.TickChannel` | src/engine/platform/vic20.cpp:96-148 | one voice's tick clears its three requests; its record is the macro-applied record with only output volume, frequency and countdown changed besides, so note, pitch, instrument, activity, portamento and the waveform chosen by the macro step are kept; the flag is raised exactly when an unmuted tone voice gets key-on; only its own record, its frequency register and the volume register are touched; the countdown becomes 2191 exactly when an unmuted tone voice gets key-on and is otherwise kept |
| `TickScheduler.Tick` | src/engine/platform/vic20.cpp:94-150 | after the tick no channel has a pending request and registers 0..9 and 15 are unchanged |
| `TickScheduler.TickVolumeReg` | src/engine/platform/vic20.cpp:88-99 | after the whole tick the volume register holds the scaled volume of the last unmuted voice, in order 0..3, whose macro brought a volume delta, and is unchanged when there is none |
| `TickScheduler.TickChannelConsistent` | src/engine/platform/vic20.cpp:129-135 | arming a voice also raises the flag |
| `TickScheduler.TickVolume` | src/engine/platform/vic20.cpp:97-100 | a volume delta sets `outVol` to the scaled volume and writes register 14 only when unmuted; without one neither moves |
| `TickScheduler.TickFrequency` | src/engine/platform/vic20.cpp:122-127 | with a request the frequency is recomputed from the possibly arpeggiated base frequency; without one, frequency, countdown and register stay |
| `TickScheduler.TickMuted` | src/engine/platform/vic20.cpp:128-146 | a muted voice is never armed and its register only receives 0 on key-off |
| `TickScheduler.TickPlainChange` | src/engine/platform/vic20.cpp:134-144 | an unmuted voice without key-on keeps its running injection and the flag; its register gets 0 on key-off, else `255 - freq` when an active voice's frequency changed, else keeps its value |
| `TickScheduler.TickKeyOn` | src/engine/platform/vic20.cpp:129-139 | key-on on an unmuted tone voice arms it at `137*16-1` and raises the flag; on the noise voice it writes `255 - freq` at once |
| `TickScheduler.TickConsistent` | src/engine/platform/vic20.cpp:94-150 | the whole tick keeps pending voices announced |
| `TickScheduler.TickChannelLocal` | src/engine/platform/vic20.cpp:95-149 | a voice's share of the tick depends only on its record, its mute flag and its own register |
| `TickScheduler.TickOn` | src/engine/platform/vic20.cpp:95-149 | within the tick a voice ends as its own share leaves it, whatever the other voices do |
| `CommandDispatcher.Porta` | src/engine/platform/vic20.cpp:199-214 | portamento never steps past its target, reports reaching it exactly when it lands on it, treats equality as downward (and then lands at once), and otherwise comes exactly `step` closer |
| `CommandDispatcher.PortaRun` | src/engine/platform/vic20.cpp:199-221 | repeated portamento calls that stop at the first reaching the target: a reported arrival is on the target, and a non-negative step never ends further away than it started |
| `CommandDispatcher.PortaCalls` | src/engine/platform/vic20.cpp:199-221 | a slide with a positive step needs the distance divided by the step, rounded up, and at least one call |
| `CommandDispatcher.PortaConverges` | src/engine/platform/vic20.cpp:199-221 | repeated calls with a positive step reach the target after exactly `PortaCalls` calls and not before |
| `CommandDispatcher.PortaStalls` | src/engine/platform/vic20.cpp:202-213 | with a step of 0 toward a different target, or with a negative step, no number of calls ever reaches the target |
| `CommandDispatcher.NoteOnChan` | src/engine/platform/vic20.cpp:154-165 | note-on makes the channel active with key-on; a supplied note also sets note and base frequency and marks the frequency changed |
| `CommandDispatcher.LegatoChan` | src/engine/platform/vic20.cpp:222-226 | legato sets the note and the base frequency of the note plus any pending relative arpeggio offset, without key-on |
| `CommandDispatcher.SetVolumeCmd` | src/engine/platform/vic20.cpp:180-187 | the volume always ends as the value; only a changed value without a volume macro recomputes `outVol` at envelope 15 and writes it (if unmuted) |
| `CommandDispatcher.CommandChan` | src/engine/platform/vic20.cpp:153-241 | no command other than volume touches frequency, countdown, volume or output volume; queries and envelope releases change nothing |
| `CommandDispatcher.ReturnCode` | src/engine/platform/vic20.cpp:188-242 | the volume query returns the volume, the max query 15, portamento 2 exactly when it reached the target, everything else 1 |
| `CommandDispatcher.Dispatch` | src/engine/platform/vic20.cpp:152-243 | only the addressed channel and register 14 change; no frequency register write, no arming; portamento returns 2 exactly when the base frequency sits on the target |
| `CommandDispatcher.DispatchEffect` | src/engine/platform/vic20.cpp:154-232 | per command: note-off clears active and requests key-off, instrument always ends with `ins` equal to the value, pitch marks frequency change, wave stores `value & 0x0f` with key-on, pre-portamento sets `inPorta`, portamento clears `inPorta` on arrival |
| `CommandDispatcher.Mute` | src/engine/platform/vic20.cpp:245-252 | muting requests key-off, unmuting an active channel requests key-on, nothing else changes (in particular no pending injection is cancelled) |
| `CommandDispatcher.Reset` | src/engine/platform/vic20.cpp:274-282 | every register 0 except register 14 at 15, every channel at its defaults, no injection pending, mute flags kept |
| `Scenarios.DispatchConsistent` | src/engine/platform/vic20.cpp:152-243 | commands never disturb the announcement of pending injections |
| `Scenarios.NoteOnTickInject` | src/engine/platform/vic20.cpp:122-137 | note-on then a tick gives the clamped, shifted mapping of the note regardless of the previous frequency, keeps the old waveform unless the macro brings a different one (then its low nibble), arms the injection, and 548 samples later the register holds `255 - freq` for good |
| `Scenarios.MuteThenTick` | src/engine/platform/vic20.cpp:245-252 | muting then ticking writes 0 to the voice's register and arms nothing |
| `Scenarios.UnmuteThenTick` | src/engine/platform/vic20.cpp:249-251 | unmuting an active tone voice then ticking re-arms its injection |
| `Scenarios.SetVolumeWrites` | src/engine/platform/vic20.cpp:180-187 | a new volume 0..15 on an unmuted channel without a volume macro lands in register 14 at once |
| `Scenarios.ResetQuiet` | src/engine/platform/vic20.cpp:274-282 | after a reset no injection is pending, so any number of samples leaves the state exactly as the reset left it |
| `Scenarios.KeyOffDuringInjection` | src/engine/platform/vic20.cpp:129-146 | key-on and key-off in the same tick: the tick writes 0 last but has armed the injection, so the sample loop later leaves `255 - freq` in the register |
| `Scenarios.MuteDuringInjection` | src/engine/platform/vic20.cpp:57-74 | muting a voice whose injection is armed, then ticking, writes 0 but keeps the countdown; the sample loop still drains with 126 and leaves `255 - freq` in the muted voice's register |

## Left out

- Sample synthesis: `vic_sound_machine_init`, `vic_sound_machine_store`, `vic_sound_machine_calculate_samples` and the copy to `bufL`/`bufR` belong to the external chip emulator. Only the register-pool side of `rWrite` and the injector's writes are modelled.
- `setFlags`: floating-point clock constants and the derived rate.
- Macro sequencer internals: `std.next`, `std.init` (on note-on, note-off and pre-portamento with `resetMacroOnPorta`), `std.release` and `notifyInsDeletion` are foreign code. Their results enter as the `Macro` record. Note-off-with-envelope and envelope release therefore change no channel state here.
- `parent->getIns`, `song.resetMacroOnPorta`, and the bodies of `NOTE_PERIODIC` and `calcFreq` are foreign code. The frequency functions are inputs.
- `getEffectName`, `getRegisterSheet`, `getChanState`, `getRegisterPool`, `getRegisterPoolSize`, `isStereo`, `poke`, `forceIns`, `init`, `quit` and the destructor are string tables, pointer returns, allocation and pass-throughs.
- `vic20.h` is not part of this model. The channel defaults are taken as frequency, pitch, note and waveform 0, instrument -1, countdown -1, volume and output volume 15, `insChanged` set and every other flag clear. All channel fields are unbounded integers. Any narrower field width, and its truncation, is not modelled.
- `DIV_NOTE_NULL` is modelled as `None` in the note-on command, not as an integer sentinel.
- `CommandDispatcher.PortaConverges`: convergence is promised only for a positive step; with a zero step toward a different target, or with a negative step, the source never arrives, which `PortaStalls` states (a zero step that starts on the target arrives at once).
- Right shift of a negative `int` is taken as an arithmetic shift, as common compilers implement it.

=== FILE: channel.dfy ===
/** Per-voice channel records, the per-tick macro input, the frequency
    tables the driver consults, and the whole driver state. */
module Channels {
  import Registers

  /** Four voices: three tone voices (0..2) and the noise voice (3). */
  const Voices: nat := 4
  const ToneVoices: nat := 3

  /** The per-voice record. `waveWriteCycle` is the countdown of the waveform
      injection, in chip cycles; a negative value means idle. */
  datatype Channel = Channel(
    freq: int,
    baseFreq: int,
    pitch: int,
    note: int,
    ins: int,
    active: bool,
    insChanged: bool,
    freqChanged: bool,
    keyOn: bool,
    keyOff: bool,
    inPorta: bool,
    vol: int,
    outVol: int,
    wave: int,
    waveWriteCycle: int)

  /** The record a channel starts from after a reset: silent and idle, with
      nothing pending for the tick and no injection in flight, at full
      volume and with no instrument chosen. */
  function DefaultChannel(): (ch: Channel)
    ensures 0 <= ch.wave < 16 && 0 <= ch.freq <= 127
    ensures !ch.active && !ch.keyOn && !ch.keyOff && !ch.freqChanged && !ch.inPorta
    ensures ch.waveWriteCycle < 0
    ensures ch.vol == 15 && ch.outVol == 15 && ch.ins < 0
  {
    Channel(
      freq := 0, baseFreq := 0, pitch := 0, note := 0, ins := -1,
      active := false, insChanged := true, freqChanged := false,
      keyOn := false, keyOff := false, inPorta := false,
      vol := 15, outVol := 15, wave := 0, waveWriteCycle := -1)
  }

  /** What the macro sequencer reports for a channel: the deltas of the
      current step (`had*` flags with their values), the arpeggio mode and
      whether an arpeggio just finished, and whether an arpeggio is pending. */
  datatype Macro = Macro(
    hadVol: bool,
    vol: int,
    hadArp: bool,
    arp: int,
    arpMode: bool,
    finishedArp: bool,
    hadWave: bool,
    wave: int,
    willArp: bool)

  /** The engine's note-to-frequency mapping (`NOTE_PERIODIC`) and its
      frequency recombination with the pitch bend (`calcFreq`). */
  datatype Freqs = Freqs(notePeriodic: int -> int, calcFreq: (int, int) -> int)

  /** The driver: four channels, the register pool, the mute flags and the
      flag that tells the sample loop an injection may be in flight. */
  datatype Chip = Chip(chans: seq<Channel>, regs: seq<int>, muted: seq<bool>, hasWaveWrite: bool)

  /** Ranges every write keeps: the waveform selects one of 16 patterns and
      the hardware frequency lies in 0..127. */
  predicate ChannelOk(ch: Channel) {
    0 <= ch.wave < 16 && 0 <= ch.freq <= 127
  }

  predicate Valid(c: Chip) {
    && |c.chans| == Voices
    && |c.muted| == Voices
    && Registers.ValidPool(c.regs)
    && forall i :: 0 <= i < Voices ==> ChannelOk(c.chans[i])
  }

  /** A pending injection on a tone voice is always announced to the sample
      loop. */
  predicate Consistent(c: Chip)
    requires Valid(c)
  {
    forall i :: 0 <= i < ToneVoices && c.chans[i].waveWriteCycle >= 0 ==> c.hasWaveWrite
  }

  /** Replace channel `i`. */
  function SetChan(c: Chip, i: nat, ch: Channel): (r: Chip)
    requires Valid(c) && i < Voices && ChannelOk(ch)
    ensures Valid(r)
    ensures r.chans[i] == ch
    ensures forall j :: 0 <= j < Voices && j != i ==> r.chans[j] == c.chans[j]
    ensures r.regs == c.regs && r.muted == c.muted && r.hasWaveWrite == c.hasWaveWrite
  {
    c.(chans := c.chans[i := ch])
  }

  /** `rWrite` on the driver state. */
  function WriteReg(c: Chip, a: nat, v: int): (r: Chip)
    requires Valid(c) && a < Registers.Size
    ensures Valid(r)
    ensures r.regs[a] == Registers.Mask(v)
    ensures forall b :: 0 <= b < Registers.Size && b != a ==> r.regs[b] == c.regs[b]
    ensures r.chans == c.chans && r.muted == c.muted && r.hasWaveWrite == c.hasWaveWrite
  {
    c.(regs := Registers.Write(c.regs, a, v))
  }
}

=== FILE: dispatch.dfy ===
/** The command dispatcher (`dispatch`), portamento, and the mute and
    reset entry points. Commands only change the addressed channel's record;
    the only register they may write is the volume register. */
module CommandDispatcher {
  import opened Registers
  import opened Channels
  import opened Volume

  datatype Option<T> = None | Some(value: T)

  /** The commands the driver reacts to; `Other` is every command it
      ignores. A note-on without a note carries `None`. */
  datatype Command =
    | NoteOn(note: Option<int>)
    | NoteOff
    | NoteOffEnv
    | EnvRelease
    | Instrument(value: int, value2: int)
    | SetVolume(value: int)
    | GetVolume
    | Pitch(value: int)
    | Wave(value: int)
    | NotePorta(value: int, value2: int)
    | Legato(value: int)
    | PrePorta(value: int, value2: int)
    | GetVolMax
    | AlwaysSetVolume
    | Other

  /** The state after a command and the integer the command returns. */
  datatype Reply = Reply(chip: Chip, ret: int)

  /** Return code of a command that reports nothing special. */
  const Normal: int := 1
  /** Return code of a portamento that reached its target. */
  const TargetReached: int := 2

  function Dist(a: int, b: int): nat {
    if a <= b then b - a else a - b
  }

  /** One portamento call: step the base frequency by `step` toward `dest`,
      choosing the direction by comparing with `dest` (equality counts as
      downward). It never steps past the target, and it reports reaching the
      target exactly when it lands on it. With a positive step it either
      lands or comes exactly `step` closer. */
  function Porta(base: int, step: int, dest: int): (r: (int, bool))
    ensures r.1 <==> r.0 == dest
    ensures dest > base ==> r.0 <= dest
    ensures dest <= base ==> r.0 >= dest
    ensures step >= 0 ==> Dist(r.0, dest) <= Dist(base, dest)
    ensures step >= 0 && dest == base ==> r.1
    ensures step > 0 && !r.1 ==> Dist(r.0, dest) == Dist(base, dest) - step
  {
    if dest > base then
      if base + step >= dest then (dest, true) else (base + step, false)
    else
      if base - step <= dest then (dest, true) else (base - step, false)
  }

  /** `n` portamento calls in a row, stopping at the first that reaches the
      target (the engine ends the slide when it gets code 2). */
  function PortaRun(base: int, step: int, dest: int, n: nat): (r: (int, bool))
    ensures r.1 ==> r.0 == dest
    ensures step >= 0 ==> Dist(r.0, dest) <= Dist(base, dest)
    decreases n
  {
    if n == 0 then (base, false)
    else
      var p := Porta(base, step, dest);
      if p.1 then p else PortaRun(p.0, step, dest, n - 1)
  }

  /** Calls a slide with a positive step needs: the distance divided by the
      step, rounded up, and at least one. */
  function PortaCalls(base: int, step: int, dest: int): (n: nat)
    requires step > 0
    ensures n >= 1
    ensures n * step >= Dist(base, dest)
    ensures n == 1 || (n - 1) * step < Dist(base, dest)
    decreases Dist(base, dest)
  {
    var p := Porta(base, step, dest);
    if p.1 then 1
    else
      var k := PortaCalls(p.0, step, dest);
      assert (k + 1) * step == k * step + step;
      assert k * step == (k - 1) * step + step;
      k + 1
  }

  /** A slide with a positive step terminates: the first `PortaCalls - 1`
      calls do not reach the target, the next one lands exactly on it. */
  lemma {:induction false} PortaConverges(base: int, step: int, dest: int, n: nat)
    requires step > 0
    ensures n < PortaCalls(base, step, dest) ==> !PortaRun(base, step, dest, n).1
    ensures n >= PortaCalls(base, step, dest) ==> PortaRun(base, step, dest, n) == (dest, true)
    decreases n
  {
    if n > 0 {
      var p := Porta(base, step, dest);
      if !p.1 {
        PortaConverges(p.0, step, dest, n - 1);
      }
    }
  }

  /** Without a positive step a slide never arrives: a step of 0 toward a
      different target stays put, and a negative step moves away from the
      target (even when it starts on it). */
  lemma {:induction false} PortaStalls(base: int, step: int, dest: int, n: nat)
    requires step < 0 || (step == 0 && dest != base)
    ensures !PortaRun(base, step, dest, n).1
    decreases n
  {
    if n > 0 {
      var p := Porta(base, step, dest);
      assert !p.1;
      PortaStalls(p.0, step, dest, n - 1);
    }
  }

  /** Note-on: a supplied note sets base frequency and note and marks the
      frequency changed; in all cases the channel becomes active with a
      key-on request. */
  function NoteOnChan(ch: Channel, note: Option<int>, f: Freqs): (r: Channel)
    ensures r.active && r.keyOn
    ensures note.Some? ==> r.baseFreq == f.notePeriodic(note.value) && r.note == note.value && r.freqChanged
    ensures note.None? ==> r == ch.(active := true, keyOn := true)
    ensures r == ch.(baseFreq := r.baseFreq, note := r.note, freqChanged := r.freqChanged, active := true, keyOn := true)
  {
    var a := match note
      case Some(n) => ch.(baseFreq := f.notePeriodic(n), freqChanged := true, note := n)
      case None => ch;
    a.(active := true, keyOn := true)
  }

  /** Legato: the base frequency follows the new note, shifted by the
      pending relative arpeggio offset if any, without a key-on. */
  function LegatoChan(ch: Channel, note: int, m: Macro, f: Freqs): (r: Channel)
    ensures r.note == note && r.freqChanged && r.keyOn == ch.keyOn
    ensures m.willArp && !m.arpMode ==> r.baseFreq == f.notePeriodic(note + m.arp)
    ensures !(m.willArp && !m.arpMode) ==> r.baseFreq == f.notePeriodic(note)
    ensures r == ch.(baseFreq := r.baseFreq, freqChanged := true, note := note)
  {
    var offset := if m.willArp && !m.arpMode then m.arp else 0;
    ch.(baseFreq := f.notePeriodic(note + offset), freqChanged := true, note := note)
  }

  /** The volume command: the volume always ends as `v`; only an actual
      change on a channel whose macro does not drive the volume recomputes
      the output volume at full envelope and writes it. */
  function SetVolumeCmd(c: Chip, ch: nat, v: int, m: Macro): (r: Chip)
    requires Valid(c) && ch < Voices
    ensures Valid(r)
    ensures r.chans[ch].vol == v
    ensures c.chans[ch].vol != v && !m.hadVol ==>
      && r.chans[ch].outVol == OutVol(v, MaxVolume)
      && r.regs[VolumeReg] == (if c.muted[ch] then c.regs[VolumeReg] else Mask(OutVol(v, MaxVolume)))
    ensures c.chans[ch].vol == v || m.hadVol ==>
      r.chans[ch].outVol == c.chans[ch].outVol && r.regs == c.regs
    ensures r.chans[ch] == c.chans[ch].(vol := v, outVol := r.chans[ch].outVol)
  {
    if c.chans[ch].vol != v then
      var c1 := SetChan(c, ch, c.chans[ch].(vol := v));
      if !m.hadVol then CalcAndWriteOutVol(c1, ch, MaxVolume) else c1
    else c
  }

  /** Commands that leave the channel record alone: the queries, and the
      envelope-release commands whose whole effect is inside the macro
      sequencer. */
  predicate Query(cmd: Command) {
    cmd.GetVolume? || cmd.GetVolMax? || cmd.AlwaysSetVolume? || cmd.Other? || cmd.NoteOffEnv? || cmd.EnvRelease?
  }

  /** The channel-record update of every command except the volume command
      (which can also write the volume register). */
  function CommandChan(chan: Channel, cmd: Command, m: Macro, f: Freqs): (r: Channel)
    requires !cmd.SetVolume?
    ensures ChannelOk(chan) ==> ChannelOk(r)
    ensures r.waveWriteCycle == chan.waveWriteCycle && r.freq == chan.freq
    ensures r.vol == chan.vol && r.outVol == chan.outVol
    ensures Query(cmd) ==> r == chan
  {
    match cmd
    case NoteOn(note) => NoteOnChan(chan, note, f)
    case NoteOff => chan.(active := false, keyOff := true)
    case Instrument(value, value2) =>
      if chan.ins != value || value2 == 1 then chan.(ins := value) else chan
    case Pitch(value) => chan.(pitch := value, freqChanged := true)
    case Wave(value) => chan.(wave := Nibble(value), keyOn := true)
    case NotePorta(value, value2) =>
      var p := Porta(chan.baseFreq, value, f.notePeriodic(value2));
      var moved := chan.(baseFreq := p.0, freqChanged := true);
      if p.1 then moved.(inPorta := false) else moved
    case Legato(value) => LegatoChan(chan, value, m, f)
    case PrePorta(value, value2) => chan.(inPorta := value != 0)
    case _ => chan
  }

  /** The integer `dispatch` returns: the volume for the volume query, 15 for
      the maximum-volume query, 2 for a portamento call that reached its
      target, 1 otherwise. */
  function ReturnCode(chan: Channel, cmd: Command, f: Freqs): (ret: int)
    ensures cmd.GetVolume? ==> ret == chan.vol
    ensures cmd.GetVolMax? ==> ret == MaxVolume
    ensures cmd.NotePorta? ==>
      (ret == TargetReached <==> Porta(chan.baseFreq, cmd.value, f.notePeriodic(cmd.value2)).1)
    ensures !(cmd.GetVolume? || cmd.GetVolMax?) ==> ret == Normal || ret == TargetReached
    ensures !(cmd.GetVolume? || cmd.GetVolMax? || cmd.NotePorta?) ==> ret == Normal
  {
    match cmd
    case GetVolume => chan.vol
    case GetVolMax => MaxVolume
    case NotePorta(value, value2) =>
      if Porta(chan.baseFreq, value, f.notePeriodic(value2)).1 then TargetReached else Normal
    case _ => Normal
  }

  /** `dispatch(c)` for channel `ch`, with `m` what the channel's macro
      sequencer currently reports. Only channel `ch` and the volume register
      can change; no frequency register is written and no injection is
      armed or cancelled. A portamento call returns 2 exactly when it left
      the base frequency on its target. */
  function Dispatch(c: Chip, ch: nat, cmd: Command, m: Macro, f: Freqs): (r: Reply)
    requires Valid(c) && ch < Voices
    ensures Valid(r.chip)
    ensures r.chip.muted == c.muted && r.chip.hasWaveWrite == c.hasWaveWrite
    ensures forall j :: 0 <= j < Voices && j != ch ==> r.chip.chans[j] == c.chans[j]
    ensures forall a :: 0 <= a < Size && a != VolumeReg ==> r.chip.regs[a] == c.regs[a]
    ensures r.chip.chans[ch].waveWriteCycle == c.chans[ch].waveWriteCycle
    ensures r.chip.chans[ch].freq == c.chans[ch].freq
    ensures cmd.NotePorta? ==>
      (r.ret == TargetReached <==> r.chip.chans[ch].baseFreq == f.notePeriodic(cmd.value2))
    ensures Query(cmd) ==> r.chip == c
  {
    var chip := if cmd.SetVolume? then SetVolumeCmd(c, ch, cmd.value, m)
                else SetChan(c, ch, CommandChan(c.chans[ch], cmd, m, f));
    Reply(chip, ReturnCode(c.chans[ch], cmd, f))
  }

  /** The record-level effect of each state-changing command. */
  lemma DispatchEffect(c: Chip, ch: nat, cmd: Command, m: Macro, f: Freqs)
    requires Valid(c) && ch < Voices
    ensures var before := c.chans[ch];
      var after := Dispatch(c, ch, cmd, m, f).chip.chans[ch];
      && (cmd.SetVolume? ==> after.vol == cmd.value)
      && (cmd.NoteOn? ==> after == NoteOnChan(before, cmd.note, f))
      && (cmd.NoteOff? ==> after == before.(active := false, keyOff := true))
      && (cmd.Instrument? ==> after == before.(ins := cmd.value))
      && (cmd.Pitch? ==> after == before.(pitch := cmd.value, freqChanged := true))
      && (cmd.Wave? ==> after == before.(wave := Nibble(cmd.value), keyOn := true))
      && (cmd.Legato? ==> after == LegatoChan(before, cmd.value, m, f))
      && (cmd.PrePorta? ==> after == before.(inPorta := cmd.value != 0))
      && (cmd.NotePorta? ==>
           var p := Porta(before.baseFreq, cmd.value, f.notePeriodic(cmd.value2));
           after == before.(baseFreq := p.0, freqChanged := true, inPorta := if p.1 then false else before.inPorta))
  {
  }

  /** `muteChannel`: a mute requests a key-off; an unmute of an active
      channel requests a key-on; nothing else changes. */
  function Mute(c: Chip, ch: nat, mute: bool): (r: Chip)
    requires Valid(c) && ch < Voices
    ensures Valid(r)
    ensures r.muted == c.muted[ch := mute]
    ensures r.regs == c.regs && r.hasWaveWrite == c.hasWaveWrite
    ensures forall j :: 0 <= j < Voices && j != ch ==> r.chans[j] == c.chans[j]
    ensures mute ==> r.chans[ch] == c.chans[ch].(keyOff := true)
    ensures !mute && c.chans[ch].active ==> r.chans[ch] == c.chans[ch].(keyOn := true)
    ensures !mute && !c.chans[ch].active ==> r.chans[ch] == c.chans[ch]
    ensures Consistent(c) ==> Consistent(r)
  {
    var c1 := c.(muted := c.muted[ch := mute]);
    if mute then SetChan(c1, ch, c.chans[ch].(keyOff := true))
    else if c.chans[ch].active then SetChan(c1, ch, c.chans[ch].(keyOn := true))
    else c1
  }

  /** `reset`: every register zero except the volume register at 15, every
      channel back to its defaults, no injection pending; the mute flags
      survive. */
  function Reset(c: Chip): (r: Chip)
    requires Valid(c)
    ensures Valid(r) && Consistent(r)
    ensures r.muted == c.muted && !r.hasWaveWrite
    ensures r.regs[VolumeReg] == 15
    ensures forall a :: 0 <= a < Size && a != VolumeReg ==> r.regs[a] == 0
    ensures forall j :: 0 <= j < Voices ==> r.chans[j] == DefaultChannel()
  {
    Chip(seq(Voices, _ => DefaultChannel()), ResetPool(), c.muted, false)
  }
}

=== FILE: frequency.dfy ===
/** Hardware frequency derivation in `tick`: the per-voice right shift that
    matches each voice's clock divisor, and the clamp to the register range. */
module Frequency {

  /** Largest frequency a voice register can take. */
  const MaxFreq: int := 127

  /** Two to the power `k`. */
  function Pow2(k: nat): (p: nat)
    ensures p >= 1
  {
    if k == 0 then 1 else 2 * Pow2(k - 1)
  }

  /** Arithmetic right shift of a signed value (`x >> k`): the quotient by
      2^k rounded toward negative infinity. */
  function Sar(x: int, k: nat): (q: int)
    ensures Pow2(k) * q <= x < Pow2(k) * (q + 1)
  {
    x / Pow2(k)
  }

  /** Right shift applied to voice `i`: 2, 1, 0 for the tone voices, 1 for
      the noise voice. */
  function VoiceShift(i: nat): (s: nat)
    requires i < 4
    ensures s <= 2
  {
    if i < 3 then 2 - i else 1
  }

  /** Clamp to the register range: below 1 becomes 1, above 127 wraps to
      0 (silence) rather than saturating. */
  function ClampFreq(f: int): (r: int)
    ensures 0 <= r <= MaxFreq
    ensures 1 <= f <= MaxFreq ==> r == f
    ensures f < 1 ==> r == 1
    ensures f > MaxFreq ==> r == 0
  {
    var g := if f < 1 then 1 else f;
    if g > MaxFreq then 0 else g
  }

  /** The hardware frequency of voice `i` for the engine frequency `raw`. */
  function DeriveFreq(raw: int, i: nat): (r: int)
    requires i < 4
    ensures 0 <= r <= MaxFreq
    ensures 128 <= 255 - r <= 255
  {
    ClampFreq(Sar(raw, VoiceShift(i)))
  }

  /** What the derived frequency means in terms of `raw` alone: 0 exactly
      when `raw` reaches 128 shifted units, 1 exactly when it stays below two
      shifted units, and otherwise the shifted value itself. */
  lemma DeriveFreqSpec(raw: int, i: nat)
    requires i < 4
    ensures var p := Pow2(VoiceShift(i));
      && (DeriveFreq(raw, i) == 0 <==> raw >= 128 * p)
      && (DeriveFreq(raw, i) == 1 <==> raw < 2 * p)
      && (2 * p <= raw < 128 * p ==> p * DeriveFreq(raw, i) <= raw < p * (DeriveFreq(raw, i) + 1))
  {
    var p := Pow2(VoiceShift(i));
    var q := Sar(raw, VoiceShift(i));
    assert p * q <= raw < p * (q + 1);
    if q >= 128 {
      assert raw >= p * 128;
    } else if q <= 1 {
      assert raw < p * 2;
    } else {
      assert p * 2 <= p * q;
      assert p * (q + 1) <= p * 128;
    }
    if raw >= 128 * p {
      assert q >= 128;
    }
    if raw < 2 * p {
      assert q <= 1;
    }
  }

  /** The shift per voice, concretely: voice 0 divides by 4, voice 1 by 2,
      voice 2 not at all, the noise voice by 2. */
  lemma VoiceShiftTable()
    ensures Pow2(VoiceShift(0)) == 4 && Pow2(VoiceShift(1)) == 2
    ensures Pow2(VoiceShift(2)) == 1 && Pow2(VoiceShift(3)) == 2
  {
  }
}

=== FILE: injector.dfy ===
/** The waveform injection of `acquire`: the chip has no waveform register,
    so while a tone voice's countdown runs, each output sample writes its
    frequency register with the drain value, then with one pattern bit in
    the top bit of the voice's load value, and finally with its frequency. */
module Injector {
  import opened Registers
  import opened Channels
  import Frequency

  /** Chip cycles per output sample (`SAMP_DIVIDER`). */
  const SampDivider: int := 4

  /** Written while the shift register drains. */
  const DrainValue: int := 126

  /** Countdown at which a voice is armed: 128*16 cycles for the slowest
      voice to finish counting, 2*16 to empty two bits, 7*16 for seven bits,
      minus one. */
  const ArmedCycle: int := 137 * 16 - 1

  /** Countdowns at and above this value drain. */
  const DrainLimit: int := 16 * 7

  /** Base load value of each tone voice. */
  const LoadFreq: seq<bv8> := [0x7e, 0x7d, 0x7b]

  /** The sixteen shift-register bit patterns a waveform selects. */
  const WavePatterns: seq<bv8> := [
    0x00, 0x02, 0x04, 0x06, 0x08, 0x0a, 0x0b, 0x0e,
    0x12, 0x14, 0x16, 0x18, 0x1a, 0x24, 0x2a, 0x2c]

  /** Bit `k` of the byte `p` (`(p >> k) & 1`). */
  function Bit(p: bv8, k: nat): (b: int)
    requires k < 8
    ensures b == 0 || b == 1
  {
    ((p >> k) & 1) as int
  }

  /** Bit `k` of a byte is its quotient by 2^k taken modulo 2. */
  lemma BitArith(p: bv8, k: nat)
    requires k < 8
    ensures Bit(p, k) == (p as int / Frequency.Pow2(k)) % 2
  {
    var q := p as int / Frequency.Pow2(k);
    assert (p >> k) as int == q by {
      ShiftQuotient(p, k);
    }
    ByteSplitLow((p >> k));
  }

  /** Shifting a byte right by `k` divides it by 2^k. */
  lemma {:induction false} ShiftQuotient(p: bv8, k: nat)
    requires k < 8
    ensures (p >> k) as int == p as int / Frequency.Pow2(k)
    decreases k
  {
    if k > 0 {
      ShiftQuotient(p, k - 1);
      ShiftStep(p, k - 1);
      HalveByte(p >> (k - 1));
      DivTwice(p as int, Frequency.Pow2(k - 1));
    }
  }

  /** One more place of shift is one more halving. */
  lemma ShiftStep(p: bv8, k: nat)
    requires k < 7
    ensures p >> (k + 1) == (p >> k) >> 1
  {
  }

  /** Shifting a byte right by one halves it. */
  lemma HalveByte(x: bv8)
    ensures (x >> 1) as int == x as int / 2
  {
  }

  /** Dividing by `d` and then by 2 is dividing by `2 * d`. */
  lemma DivTwice(a: int, d: int)
    requires a >= 0 && d >= 1
    ensures a / d / 2 == a / (2 * d)
  {
    var q := a / d;
    var r := a % d;
    var q2 := q / 2;
    var s := d * (q % 2) + r;
    assert a == (2 * d) * q2 + s by {
      assert a == d * q + r;
      assert q == 2 * q2 + q % 2;
      assert d * q == d * (2 * q2) + d * (q % 2);
    }
    assert 0 <= s < 2 * d by {
      assert 0 <= d * (q % 2) <= d;
    }
    DivUnique(a, 2 * d, q2, s);
  }

  /** The quotient is the unique `q` with `a == m * q + s` and `0 <= s < m`. */
  lemma DivUnique(a: int, m: int, q: int, s: int)
    requires m >= 1 && 0 <= s < m && a == m * q + s
    ensures a / m == q
  {
    var d := a / m - q;
    assert m * d == s - a % m;
    MulBounds(m, d);
  }

  /** A non-zero multiple of `m` is at least `m` away from zero. */
  lemma MulBounds(m: int, d: int)
    requires m >= 1
    ensures d >= 1 ==> m * d >= m
    ensures d <= -1 ==> m * d <= -m
  {
  }

  /** The lowest bit of a byte is its remainder modulo 2. */
  lemma ByteSplitLow(b: bv8)
    ensures (b & 1) as int == (b as int) % 2
  {
  }

  /** `load | ((pattern << shift) & 0x80)`, computed at the width of C's
      `int` as the source does. */
  function PatternByte(load: bv8, pattern: bv8, shift: nat): (r: bv8)
    requires shift < 8
    ensures r & 0x7f == load & 0x7f
    ensures r >> 7 == (load >> 7) | ((pattern >> (7 - shift)) & 1)
  {
    ((load as bv32) | (((pattern as bv32) << shift) & 0x80)) as bv8
  }

  /** At the bit level: a load value below 0x80 survives in the low seven
      bits and the top bit is bit `7 - shift` of the pattern. */
  lemma PatternByteBv(load: bv8, pattern: bv8, shift: nat)
    requires load < 0x80 && shift < 8
    ensures PatternByte(load, pattern, shift) & 0x7f == load
    ensures PatternByte(load, pattern, shift) >> 7 == (pattern >> (7 - shift)) & 1
  {
  }

  /** The low seven bits and the top bit of a byte, as numbers. */
  lemma ByteSplit(b: bv8)
    ensures (b as int) % 128 == (b & 0x7f) as int
    ensures (b as int) / 128 == (b >> 7) as int
  {
  }

  /** The pattern byte as a number: the load value plus 128 times the
      sampled pattern bit. */
  lemma PatternByteBits(load: bv8, pattern: bv8, shift: nat)
    requires load < 0x80 && shift < 8
    ensures (PatternByte(load, pattern, shift) as int) % 128 == load as int
    ensures (PatternByte(load, pattern, shift) as int) / 128 == Bit(pattern, 7 - shift)
  {
    PatternByteBv(load, pattern, shift);
    ByteSplit(PatternByte(load, pattern, shift));
  }

  /** The value the sample loop hands to `rWrite` for tone voice `i` at
      countdown `cycle`. */
  function InjectValue(i: nat, cycle: int, wave: int, freq: int): (v: int)
    requires i < ToneVoices && cycle >= 0 && 0 <= wave < 16 && 0 <= freq <= 127
    ensures IsByte(v)
  {
    if cycle >= DrainLimit then DrainValue
    else if cycle >= 16 then PatternByte(LoadFreq[i], WavePatterns[wave], 8 - cycle / 16) as int
    else 255 - freq
  }

  /** The middle phase: the shift `8 - cycle / 16` lies in 2..7, the
      written byte keeps the voice's load value in its low seven bits and
      carries pattern bit `7 - shift` in its top bit. */
  lemma InjectPattern(i: nat, cycle: int, wave: int, freq: int)
    requires i < ToneVoices && 16 <= cycle < DrainLimit && 0 <= wave < 16 && 0 <= freq <= 127
    ensures 2 <= 8 - cycle / 16 <= 7
    ensures InjectValue(i, cycle, wave, freq) % 128 == LoadFreq[i] as int
    ensures InjectValue(i, cycle, wave, freq) / 128 == Bit(WavePatterns[wave], 7 - (8 - cycle / 16))
  {
    PatternByteBits(LoadFreq[i], WavePatterns[wave], 8 - cycle / 16);
  }

  /** The three phases of the written value: the drain value from 112 up,
      a pattern byte for 16..111, `255 - freq` below 16. All patterns fit in
      six bits, so only pattern bits 0..5 are ever sampled. */
  lemma InjectPhases(i: nat, cycle: int, wave: int, freq: int)
    requires i < ToneVoices && cycle >= 0 && 0 <= wave < 16 && 0 <= freq <= 127
    ensures cycle >= DrainLimit ==> InjectValue(i, cycle, wave, freq) == DrainValue
    ensures 16 <= cycle < DrainLimit ==>
      && 0 <= 7 - (8 - cycle / 16) <= 5
      && InjectValue(i, cycle, wave, freq) % 128 == LoadFreq[i] as int
      && InjectValue(i, cycle, wave, freq) / 128 == Bit(WavePatterns[wave], 7 - (8 - cycle / 16))
    ensures cycle < 16 ==> InjectValue(i, cycle, wave, freq) == 255 - freq
    ensures WavePatterns[wave] < 64
  {
    if 16 <= cycle < DrainLimit {
      InjectPattern(i, cycle, wave, freq);
    }
  }

  /** Tone voice `i` is written during this sample. */
  predicate Serviced(c: Chip, i: nat)
    requires Valid(c) && i < ToneVoices
  {
    c.hasWaveWrite && c.chans[i].waveWriteCycle >= 0
  }

  /** One pass of the inner loop for voice `i`: a pending voice gets its
      phase value and counts down by 4, an idle one is left alone. */
  function ServiceVoice(c: Chip, i: nat): (r: Chip)
    requires Valid(c) && i < ToneVoices
    ensures Valid(r)
    ensures r.muted == c.muted
    ensures r.hasWaveWrite == (c.hasWaveWrite || c.chans[i].waveWriteCycle >= 0)
    ensures forall j :: 0 <= j < Voices && j != i ==> r.chans[j] == c.chans[j]
    ensures forall a :: 0 <= a < Size && a != FreqReg(i) ==> r.regs[a] == c.regs[a]
    ensures c.chans[i].waveWriteCycle >= 0 ==>
      && r.chans[i] == c.chans[i].(waveWriteCycle := c.chans[i].waveWriteCycle - SampDivider)
      && r.regs[FreqReg(i)] == InjectValue(i, c.chans[i].waveWriteCycle, c.chans[i].wave, c.chans[i].freq)
    ensures c.chans[i].waveWriteCycle < 0 ==> r.chans[i] == c.chans[i] && r.regs == c.regs
  {
    var ch := c.chans[i];
    if ch.waveWriteCycle >= 0 then
      var v := InjectValue(i, ch.waveWriteCycle, ch.wave, ch.freq);
      MaskOfByte(v);
      var w := WriteReg(c, FreqReg(i), v);
      SetChan(w, i, ch.(waveWriteCycle := ch.waveWriteCycle - SampDivider)).(hasWaveWrite := true)
    else c
  }

  /** Some tone voice has an injection in flight. */
  predicate AnyPending(c: Chip)
    requires Valid(c)
  {
    c.chans[0].waveWriteCycle >= 0 || c.chans[1].waveWriteCycle >= 0 || c.chans[2].waveWriteCycle >= 0
  }

  /** The register writes and counter updates of one output sample. The
      noise voice and the registers outside 0x0A..0x0C are untouched, and the
      flag stays up exactly when some voice was pending. */
  function InjectStep(c: Chip): (r: Chip)
    requires Valid(c)
    ensures Valid(r)
    ensures r.muted == c.muted
    ensures r.hasWaveWrite <==> c.hasWaveWrite && AnyPending(c)
    ensures r.chans[3] == c.chans[3]
    ensures forall a :: 0 <= a < Size && !(10 <= a < 13) ==> r.regs[a] == c.regs[a]
  {
    if !c.hasWaveWrite then c
    else ServiceVoice(ServiceVoice(ServiceVoice(c.(hasWaveWrite := false), 0), 1), 2)
  }

  /** What one sample does to tone voice `i`: when serviced it gets the
      phase value and its countdown drops by exactly 4; otherwise neither its
      register nor its countdown moves. No other field of the voice changes. */
  lemma InjectStepVoice(c: Chip, i: nat)
    requires Valid(c) && i < ToneVoices
    ensures var r := InjectStep(c);
      && r.chans[i] == c.chans[i].(waveWriteCycle := r.chans[i].waveWriteCycle)
      && (Serviced(c, i) ==>
           && r.chans[i].waveWriteCycle == c.chans[i].waveWriteCycle - SampDivider
           && r.regs[FreqReg(i)] == InjectValue(i, c.chans[i].waveWriteCycle, c.chans[i].wave, c.chans[i].freq))
      && (!Serviced(c, i) ==>
           && r.chans[i].waveWriteCycle == c.chans[i].waveWriteCycle
           && r.regs[FreqReg(i)] == c.regs[FreqReg(i)])
  {
    if c.hasWaveWrite {
      var c0 := c.(hasWaveWrite := false);
      var c1 := ServiceVoice(c0, 0);
      var c2 := ServiceVoice(c1, 1);
      var c3 := ServiceVoice(c2, 2);
      assert c3 == InjectStep(c);
      if i == 0 {
        assert c1.chans[0] == c3.chans[0] && c1.regs[10] == c3.regs[10];
      } else if i == 1 {
        assert c1.chans[1] == c0.chans[1] && c1.regs[11] == c0.regs[11];
      } else {
        assert c2.chans[2] == c0.chans[2] && c2.regs[12] == c0.regs[12];
      }
    }
  }

  /** A step keeps every pending injection announced. */
  lemma InjectStepConsistent(c: Chip)
    requires Valid(c) && Consistent(c)
    ensures Consistent(InjectStep(c))
  {
    var r := InjectStep(c);
    forall i | 0 <= i < ToneVoices && r.chans[i].waveWriteCycle >= 0
      ensures r.hasWaveWrite
    {
      InjectStepVoice(c, i);
    }
  }
}

=== FILE: registers.dfy ===
/** The sixteen-byte register pool the driver mirrors for the chip, and the
    byte masking that every register write goes through (`rWrite`). */
module Registers {

  /** Number of registers in the pool. */
  const Size: nat := 16

  /** Shared volume register (offset 0x0E). */
  const VolumeReg: nat := 14

  /** Frequency register of voice `i`: offsets 0x0A..0x0D. */
  function FreqReg(i: nat): (a: nat)
    requires i < 4
    ensures 10 <= a < VolumeReg
  {
    10 + i
  }

  predicate IsByte(v: int) {
    0 <= v < 256
  }

  /** A register pool: exactly sixteen bytes. */
  predicate ValidPool(r: seq<int>) {
    |r| == Size && forall a :: 0 <= a < |r| ==> IsByte(r[a])
  }

  /** The byte stored for the value `v` (`v & 0xff`): the unique byte that is
      congruent to `v` modulo 256, which is the low eight bits of its
      two's-complement form, also for negative `v`. */
  function Mask(v: int): (b: int)
    ensures IsByte(b)
    ensures (v - b) % 256 == 0
  {
    v % 256
  }

  /** The waveform selector kept from a value (`v & 0x0f`): the unique value
      in 0..15 congruent to `v` modulo 16. */
  function Nibble(v: int): (n: int)
    ensures 0 <= n < 16
    ensures (v - n) % 16 == 0
  {
    v % 16
  }

  /** A value that already is a byte is stored unchanged. */
  lemma MaskOfByte(v: int)
    requires IsByte(v)
    ensures Mask(v) == v
  {
  }

  /** `rWrite(a, v)`: register `a` takes the masked value, every other
      register keeps its contents. */
  function Write(r: seq<int>, a: nat, v: int): (r': seq<int>)
    requires ValidPool(r) && a < Size
    ensures ValidPool(r')
    ensures r'[a] == Mask(v)
    ensures forall b :: 0 <= b < Size && b != a ==> r'[b] == r[b]
  {
    r[a := Mask(v)]
  }

  /** The pool after a reset: cleared to zero, then 15 written to the volume
      register. */
  function ResetPool(): (r: seq<int>)
    ensures ValidPool(r)
    ensures r[VolumeReg] == 15
    ensures forall a :: 0 <= a < Size && a != VolumeReg ==> r[a] == 0
  {
    Write(seq(Size, _ => 0), VolumeReg, 15)
  }
}

=== FILE: scenarios.dfy ===
/** Properties that span several entry points: a note-on followed by a
    tick and the sample loop, muting and unmuting across a tick, and the
    volume command. */
module Scenarios {
  import opened Registers
  import opened Channels
  import opened Volume
  import opened Frequency
  import opened Injector
  import opened InjectionTrace
  import opened TickScheduler
  import opened CommandDispatcher

  /** Commands never disturb the announcement of pending injections. */
  lemma DispatchConsistent(c: Chip, ch: nat, cmd: Command, m: Macro, f: Freqs)
    requires Valid(c) && Consistent(c) && ch < Voices
    ensures Consistent(Dispatch(c, ch, cmd, m, f).chip)
  {
    var r := Dispatch(c, ch, cmd, m, f).chip;
    forall i | 0 <= i < ToneVoices && r.chans[i].waveWriteCycle >= 0
      ensures r.hasWaveWrite
    {
      assert r.chans[i].waveWriteCycle == c.chans[i].waveWriteCycle;
    }
  }

  /** A note-on with note `n` on an unmuted tone voice, then a tick whose
      macro step for that voice brings no arpeggio: the voice's frequency is
      the clamped, shifted mapping of `n` under the voice's pitch, whatever
      the voice held before, the waveform is the macro's new one or else the
      old one, the injection is armed, and 548 samples later the frequency
      register holds `255 - freq`, where it stays. */
  lemma NoteOnTickInject(c: Chip, i: nat, n: int, md: Macro, ms: seq<Macro>, f: Freqs, k: nat)
    requires Valid(c) && Consistent(c) && i < ToneVoices && !c.muted[i]
    requires |ms| == Voices && !ArpChange(ms[i]) && k >= ServicedSamples
    ensures var t := Tick(Dispatch(c, i, NoteOn(Some(n)), md, f).chip, ms, f);
      var freq := DeriveFreq(f.calcFreq(f.notePeriodic(n), c.chans[i].pitch), i);
      && t.chans[i].freq == freq
      && t.chans[i].wave
         == (if ms[i].hadWave && c.chans[i].wave != ms[i].wave then Nibble(ms[i].wave) else c.chans[i].wave)
      && Armed(t, i)
      && Run(t, k).regs[FreqReg(i)] == 255 - freq
  {
    var d := Dispatch(c, i, NoteOn(Some(n)), md, f).chip;
    DispatchEffect(c, i, NoteOn(Some(n)), md, f);
    DispatchConsistent(c, i, NoteOn(Some(n)), md, f);
    var t := Tick(d, ms, f);
    TickOn(d, ms, f, i);
    TickFrequency(d, i, ms[i], f);
    TickKeyOn(d, i, ms[i], f);
    TickConsistent(d, ms, f);
    assert Armed(t, i);
    ArmedDone(t, i, k);
  }

  /** Muting a voice and ticking writes 0 to its frequency register and
      arms nothing. */
  lemma MuteThenTick(c: Chip, i: nat, ms: seq<Macro>, f: Freqs)
    requires Valid(c) && i < Voices && |ms| == Voices
    ensures var t := Tick(Mute(c, i, true), ms, f);
      && t.regs[FreqReg(i)] == 0
      && t.chans[i].waveWriteCycle == c.chans[i].waveWriteCycle
  {
    var u := Mute(c, i, true);
    TickOn(u, ms, f, i);
    TickMuted(u, i, ms[i], f);
  }

  /** Muting a voice whose injection is armed does not stop it: the tick
      writes 0 to the frequency register, but the countdown survives, so
      the sample loop still drains, writes the pattern bits, and leaves
      `255 - freq` in the register of the muted voice. */
  lemma MuteDuringInjection(c: Chip, i: nat, ms: seq<Macro>, f: Freqs, k: nat)
    requires Valid(c) && Armed(c, i) && |ms| == Voices && k >= ServicedSamples
    ensures var t := Tick(Mute(c, i, true), ms, f);
      && t.muted[i]
      && t.regs[FreqReg(i)] == 0
      && Armed(t, i)
      && (forall n :: 1 <= n <= DrainSamples ==> Run(t, n).regs[FreqReg(i)] == DrainValue)
      && Run(t, k).muted[i]
      && Run(t, k).regs[FreqReg(i)] == 255 - t.chans[i].freq
  {
    var u := Mute(c, i, true);
    var t := Tick(u, ms, f);
    MuteThenTick(c, i, ms, f);
    TickConsistent(u, ms, f);
    assert Armed(t, i);
    ArmedInjection(t, i);
    ArmedDone(t, i, k);
  }

  /** Unmuting an active tone voice and ticking re-arms its injection. */
  lemma UnmuteThenTick(c: Chip, i: nat, ms: seq<Macro>, f: Freqs)
    requires Valid(c) && Consistent(c) && i < ToneVoices && |ms| == Voices && c.chans[i].active
    ensures Armed(Tick(Mute(c, i, false), ms, f), i)
  {
    var u := Mute(c, i, false);
    TickOn(u, ms, f, i);
    TickKeyOn(u, i, ms[i], f);
    TickConsistent(u, ms, f);
  }

  /** A volume command with a new value in 0..15, on an unmuted channel
      whose macro does not drive the volume, writes that value to the volume
      register at once. */
  lemma SetVolumeWrites(c: Chip, ch: nat, v: int, m: Macro, f: Freqs)
    requires Valid(c) && ch < Voices && !c.muted[ch] && !m.hadVol
    requires 0 <= v <= MaxVolume && c.chans[ch].vol != v
    ensures Dispatch(c, ch, SetVolume(v), m, f).chip.regs[VolumeReg] == v
    ensures Dispatch(c, ch, SetVolume(v), m, f).chip.chans[ch].outVol == v
  {
    OutVolFullScale(v);
  }

  /** Key-on and key-off pending in the same tick on an unmuted tone voice:
      the tick writes 0 last, but it has also armed the injection, so the
      sample loop goes on to overwrite the register and leaves `255 - freq`
      there although the key is off. */
  lemma KeyOffDuringInjection(c: Chip, i: nat, m: Macro, f: Freqs, k: nat)
    requires Valid(c) && Consistent(c) && i < ToneVoices && !c.muted[i]
    requires ApplyMacro(c.chans[i], m, f).keyOn && c.chans[i].keyOff && k >= ServicedSamples
    ensures var t := TickChannel(c, i, m, f);
      && t.regs[FreqReg(i)] == 0
      && Armed(t, i)
      && Run(t, k).regs[FreqReg(i)] == 255 - t.chans[i].freq
  {
    var t := TickChannel(c, i, m, f);
    TickKeyOn(c, i, m, f);
    TickChannelConsistent(c, i, m, f);
    ArmedDone(t, i, k);
  }

  /** After a reset the sample loop writes nothing, however long it runs. */
  lemma {:induction false} ResetQuiet(c: Chip, n: nat)
    requires Valid(c)
    ensures Run(Reset(c), n) == Reset(c)
    decreases n
  {
    if n > 0 {
      ResetQuiet(c, n - 1);
    }
  }
}

=== FILE: tick.dfy ===
/** The once-per-tick update of every channel (`tick`): macro deltas
    become volume, base frequency and waveform; then pending key-on,
    key-off and frequency-change requests are serviced. */
module TickScheduler {
  import opened Registers
  import opened Channels
  import opened Volume
  import opened Frequency
  import opened Injector

  /** The macro step asks for a frequency recomputation. */
  predicate ArpChange(m: Macro) {
    m.hadArp || (m.arpMode && m.finishedArp)
  }

  /** The macro step selects a different waveform. */
  predicate WaveChange(ch: Channel, m: Macro) {
    m.hadWave && ch.wave != m.wave
  }

  /** The channel has a request the tick must service. */
  predicate HasRequest(ch: Channel) {
    ch.freqChanged || ch.keyOn || ch.keyOff
  }

  /** Arpeggio and waveform deltas applied to the channel record. An
      arpeggio delta sets the base frequency to the period of the arpeggio
      note (absolute, or relative to the channel's note) and marks the
      frequency changed; during portamento it still marks the frequency
      changed but leaves the base frequency alone. A finished absolute
      arpeggio returns to the period of the channel's note; a waveform delta that differs
      from the stored waveform stores it masked to 4 bits and requests a
      key-on. Nothing else in the record changes. */
  function ApplyMacro(ch: Channel, m: Macro, f: Freqs): (r: Channel)
    ensures ChannelOk(ch) ==> ChannelOk(r)
    ensures r == ch.(baseFreq := r.baseFreq, freqChanged := r.freqChanged, keyOn := r.keyOn, wave := r.wave)
    ensures r.freqChanged == (ch.freqChanged || ArpChange(m))
    ensures r.keyOn == (ch.keyOn || WaveChange(ch, m))
    ensures WaveChange(ch, m) ==> r.wave == Nibble(m.wave)
    ensures !WaveChange(ch, m) ==> r.wave == ch.wave
    ensures !ArpChange(m) || (m.hadArp && ch.inPorta) ==> r.baseFreq == ch.baseFreq
    ensures m.hadArp && !ch.inPorta ==>
      r.baseFreq == f.notePeriodic(if m.arpMode then m.arp else ch.note + m.arp)
    ensures !m.hadArp && m.arpMode && m.finishedArp ==> r.baseFreq == f.notePeriodic(ch.note)
  {
    var a :=
      if m.hadArp then
        ch.(baseFreq :=
              if ch.inPorta then ch.baseFreq
              else if m.arpMode then f.notePeriodic(m.arp)
              else f.notePeriodic(ch.note + m.arp),
            freqChanged := true)
      else if m.arpMode && m.finishedArp then
        ch.(baseFreq := f.notePeriodic(ch.note), freqChanged := true)
      else ch;
    if m.hadWave && a.wave != m.wave then a.(wave := Nibble(m.wave), keyOn := true) else a
  }

  /** The request block of the tick for voice `i`: recompute the hardware
      frequency, arm the injection on a tone voice's key-on (the noise voice
      is written directly), otherwise write a changed frequency of an active
      unmuted voice, then write 0 on key-off; all three requests end cleared. */
  function ServiceRequests(c: Chip, i: nat, f: Freqs): (r: Chip)
    requires Valid(c) && i < Voices
    ensures Valid(r)
    ensures r.muted == c.muted
    ensures !r.chans[i].keyOn && !r.chans[i].keyOff && !r.chans[i].freqChanged
    ensures forall j :: 0 <= j < Voices && j != i ==> r.chans[j] == c.chans[j]
    ensures forall a :: 0 <= a < Size && a != FreqReg(i) ==> r.regs[a] == c.regs[a]
    ensures !HasRequest(c.chans[i]) ==> r == c
    ensures r.chans[i] == c.chans[i].(freq := r.chans[i].freq, keyOn := false, keyOff := false,
                                      freqChanged := false, waveWriteCycle := r.chans[i].waveWriteCycle)
    ensures r.hasWaveWrite == (c.hasWaveWrite || (c.chans[i].keyOn && !c.muted[i] && i < ToneVoices))
    ensures r.chans[i].waveWriteCycle
            == (if c.chans[i].keyOn && !c.muted[i] && i < ToneVoices then ArmedCycle else c.chans[i].waveWriteCycle)
  {
    var ch := c.chans[i];
    if !HasRequest(ch) then c
    else
      var freq := DeriveFreq(f.calcFreq(ch.baseFreq, ch.pitch), i);
      var keyOn := ch.keyOn && !c.muted[i];
      var arm := keyOn && i < ToneVoices;
      var c1 := SetChan(c, i, ch.(freq := freq, keyOn := false, keyOff := false, freqChanged := false,
                                  waveWriteCycle := if arm then ArmedCycle else ch.waveWriteCycle));
      var c2 :=
        if arm then c1.(hasWaveWrite := true)
        else if keyOn || (ch.freqChanged && ch.active && !c.muted[i]) then WriteReg(c1, FreqReg(i), 255 - freq)
        else c1;
      if ch.keyOff then WriteReg(c2, FreqReg(i), 0) else c2
  }

  /** What the request block does to voice `i`'s frequency register and
      countdown. */
  lemma ServiceRequestsEffect(c: Chip, i: nat, f: Freqs)
    requires Valid(c) && i < Voices && HasRequest(c.chans[i])
    ensures var ch := c.chans[i];
      var r := ServiceRequests(c, i, f);
      var freq := DeriveFreq(f.calcFreq(ch.baseFreq, ch.pitch), i);
      && r.chans[i] == ch.(freq := freq, keyOn := false, keyOff := false, freqChanged := false,
                           waveWriteCycle := r.chans[i].waveWriteCycle)
      && r.chans[i].waveWriteCycle
         == (if ch.keyOn && !c.muted[i] && i < ToneVoices then ArmedCycle else ch.waveWriteCycle)
      // a muted voice is never armed and gets no frequency other than 0
      && (c.muted[i] ==>
           && r.chans[i].waveWriteCycle == ch.waveWriteCycle
           && r.hasWaveWrite == c.hasWaveWrite
           && r.regs[FreqReg(i)] == (if ch.keyOff then 0 else c.regs[FreqReg(i)]))
      // key-on arms a tone voice ...
      && (ch.keyOn && !c.muted[i] && i < ToneVoices ==>
           && r.chans[i].waveWriteCycle == ArmedCycle
           && r.hasWaveWrite
           && r.regs[FreqReg(i)] == (if ch.keyOff then 0 else c.regs[FreqReg(i)]))
      // ... and writes the noise voice directly
      && (ch.keyOn && !c.muted[i] && i == 3 ==>
           r.regs[FreqReg(i)] == (if ch.keyOff then 0 else 255 - freq))
      // without key-on, a changed frequency of an active voice is written
      && (!ch.keyOn && !c.muted[i] ==>
           && r.chans[i].waveWriteCycle == ch.waveWriteCycle
           && r.hasWaveWrite == c.hasWaveWrite
           && r.regs[FreqReg(i)]
              == (if ch.keyOff then 0
                  else if ch.freqChanged && ch.active then 255 - freq
                  else c.regs[FreqReg(i)]))
  {
  }

  /** The first part of a channel's tick: the volume delta, then the
      arpeggio and waveform deltas. Only the voice's record and the volume
      register change, and the record is the macro-applied one with the new
      output volume. */
  function MacroStep(c: Chip, i: nat, m: Macro, f: Freqs): (r: Chip)
    requires Valid(c) && i < Voices
    ensures Valid(r)
    ensures r.muted == c.muted && r.hasWaveWrite == c.hasWaveWrite
    ensures r.chans[i] == ApplyMacro(c.chans[i], m, f).(outVol := r.chans[i].outVol)
    ensures forall j :: 0 <= j < Voices && j != i ==> r.chans[j] == c.chans[j]
    ensures forall a :: 0 <= a < Size && a != VolumeReg ==> r.regs[a] == c.regs[a]
    ensures r.chans[i].outVol == (if m.hadVol then OutVol(c.chans[i].vol, m.vol) else c.chans[i].outVol)
    ensures r.regs[VolumeReg]
            == (if m.hadVol && !c.muted[i] then Mask(OutVol(c.chans[i].vol, m.vol)) else c.regs[VolumeReg])
  {
    var c1 := if m.hadVol then CalcAndWriteOutVol(c, i, m.vol) else c;
    SetChan(c1, i, ApplyMacro(c1.chans[i], m, f))
  }

  /** One channel's share of the tick. Of the voice's own record only the
      output volume, the macro-driven fields, the frequency, the countdown
      and the three requests (now cleared) change: its note, pitch,
      instrument, activity and portamento state are kept. The flag is raised
      exactly when a tone voice is armed. */
  function TickChannel(c: Chip, i: nat, m: Macro, f: Freqs): (r: Chip)
    requires Valid(c) && i < Voices
    ensures Valid(r)
    ensures r.muted == c.muted
    ensures !r.chans[i].keyOn && !r.chans[i].keyOff && !r.chans[i].freqChanged
    ensures r.chans[i] == ApplyMacro(c.chans[i], m, f).(outVol := r.chans[i].outVol, freq := r.chans[i].freq,
                                                         keyOn := false, keyOff := false, freqChanged := false,
                                                         waveWriteCycle := r.chans[i].waveWriteCycle)
    ensures forall j :: 0 <= j < Voices && j != i ==> r.chans[j] == c.chans[j]
    ensures forall a :: 0 <= a < Size && a != FreqReg(i) && a != VolumeReg ==> r.regs[a] == c.regs[a]
    ensures r.hasWaveWrite
            == (c.hasWaveWrite || (ApplyMacro(c.chans[i], m, f).keyOn && !c.muted[i] && i < ToneVoices))
    ensures r.chans[i].waveWriteCycle
            == (if ApplyMacro(c.chans[i], m, f).keyOn && !c.muted[i] && i < ToneVoices then ArmedCycle
                else c.chans[i].waveWriteCycle)
  {
    ServiceRequests(MacroStep(c, i, m, f), i, f)
  }

  /** The tick keeps pending injections announced: arming a voice also
      raises the flag. */
  lemma TickChannelConsistent(c: Chip, i: nat, m: Macro, f: Freqs)
    requires Valid(c) && Consistent(c) && i < Voices
    ensures Consistent(TickChannel(c, i, m, f))
  {
    var c2 := MacroStep(c, i, m, f);
    if HasRequest(c2.chans[i]) {
      ServiceRequestsEffect(c2, i, f);
    }
  }

  /** A volume delta sets the output volume to the scaled volume and writes
      it unless the voice is muted; without one neither moves. */
  lemma TickVolume(c: Chip, i: nat, m: Macro, f: Freqs)
    requires Valid(c) && i < Voices
    ensures var r := TickChannel(c, i, m, f);
      && (m.hadVol ==>
           && r.chans[i].outVol == OutVol(c.chans[i].vol, m.vol)
           && r.regs[VolumeReg] == (if c.muted[i] then c.regs[VolumeReg] else Mask(OutVol(c.chans[i].vol, m.vol))))
      && (!m.hadVol ==> r.chans[i].outVol == c.chans[i].outVol && r.regs[VolumeReg] == c.regs[VolumeReg])
      && r.chans[i].vol == c.chans[i].vol
  {
  }

  /** The channel record after its tick: the frequency is recomputed from
      the (possibly arpeggiated) base frequency whenever a request was
      pending, and left alone otherwise. */
  lemma TickFrequency(c: Chip, i: nat, m: Macro, f: Freqs)
    requires Valid(c) && i < Voices
    ensures var a := ApplyMacro(c.chans[i], m, f);
      var r := TickChannel(c, i, m, f);
      && r.chans[i].baseFreq == a.baseFreq
      && (HasRequest(a) ==> r.chans[i].freq == DeriveFreq(f.calcFreq(a.baseFreq, a.pitch), i))
      && (!HasRequest(a) ==>
           && r.chans[i].freq == c.chans[i].freq
           && r.chans[i].waveWriteCycle == c.chans[i].waveWriteCycle
           && r.regs[FreqReg(i)] == c.regs[FreqReg(i)]
           && r.hasWaveWrite == c.hasWaveWrite)
  {
    var c2 := MacroStep(c, i, m, f);
    if HasRequest(c2.chans[i]) {
      ServiceRequestsEffect(c2, i, f);
    }
  }

  /** A muted voice is never armed by the tick and its frequency register
      only ever receives 0, on key-off. */
  lemma TickMuted(c: Chip, i: nat, m: Macro, f: Freqs)
    requires Valid(c) && i < Voices && c.muted[i]
    ensures var r := TickChannel(c, i, m, f);
      && r.chans[i].waveWriteCycle == c.chans[i].waveWriteCycle
      && r.hasWaveWrite == c.hasWaveWrite
      && r.regs[FreqReg(i)] == (if c.chans[i].keyOff then 0 else c.regs[FreqReg(i)])
  {
    var c2 := MacroStep(c, i, m, f);
    if HasRequest(c2.chans[i]) {
      ServiceRequestsEffect(c2, i, f);
    }
  }

  /** An unmuted voice with no key-on after the macro step: a running
      injection is left alone, and the frequency register gets 0 on key-off,
      otherwise `255 - freq` when the frequency changed on an active voice,
      otherwise keeps its value. */
  lemma TickPlainChange(c: Chip, i: nat, m: Macro, f: Freqs)
    requires Valid(c) && i < Voices && !c.muted[i] && !ApplyMacro(c.chans[i], m, f).keyOn
    ensures var a := ApplyMacro(c.chans[i], m, f);
      var r := TickChannel(c, i, m, f);
      && r.chans[i].waveWriteCycle == c.chans[i].waveWriteCycle
      && r.hasWaveWrite == c.hasWaveWrite
      && r.regs[FreqReg(i)]
         == (if a.keyOff then 0
             else if a.freqChanged && a.active then 255 - r.chans[i].freq
             else c.regs[FreqReg(i)])
  {
    var c2 := MacroStep(c, i, m, f);
    if HasRequest(c2.chans[i]) {
      ServiceRequestsEffect(c2, i, f);
    }
  }

  /** Key-on on an unmuted tone voice arms its injection at the full
      countdown; the noise voice instead gets `255 - freq` written at once. */
  lemma TickKeyOn(c: Chip, i: nat, m: Macro, f: Freqs)
    requires Valid(c) && i < Voices && !c.muted[i] && ApplyMacro(c.chans[i], m, f).keyOn
    ensures var r := TickChannel(c, i, m, f);
      && (i < ToneVoices ==> r.chans[i].waveWriteCycle == ArmedCycle && r.hasWaveWrite)
      && (i == 3 && !c.chans[i].keyOff ==> r.regs[FreqReg(i)] == 255 - r.chans[i].freq)
      && (c.chans[i].keyOff ==> r.regs[FreqReg(i)] == 0)
  {
    var c2 := MacroStep(c, i, m, f);
    ServiceRequestsEffect(c2, i, f);
  }

  /** The tick: every channel in order 0..3, each with its own macro step.
      Afterwards no channel has a pending request. */
  function Tick(c: Chip, ms: seq<Macro>, f: Freqs): (r: Chip)
    requires Valid(c) && |ms| == Voices
    ensures Valid(r)
    ensures r.muted == c.muted
    ensures forall j :: 0 <= j < Voices ==>
      !r.chans[j].keyOn && !r.chans[j].keyOff && !r.chans[j].freqChanged
    ensures forall a :: 0 <= a < 10 || a == 15 ==> r.regs[a] == c.regs[a]
  {
    var c0 := TickChannel(c, 0, ms[0], f);
    var c1 := TickChannel(c0, 1, ms[1], f);
    var c2 := TickChannel(c1, 2, ms[2], f);
    TickChannel(c2, 3, ms[3], f)
  }

  /** Voice `j` writes the volume register during the tick: its macro step
      brings a volume delta and it is not muted. */
  predicate VolumeWriter(c: Chip, ms: seq<Macro>, j: nat)
    requires Valid(c) && |ms| == Voices && j < Voices
  {
    ms[j].hadVol && !c.muted[j]
  }

  /** The volume register after a whole tick: the scaled volume of the last
      voice (in order 0..3) that writes it, or the old value if none does. */
  lemma TickVolumeReg(c: Chip, ms: seq<Macro>, f: Freqs)
    requires Valid(c) && |ms| == Voices
    ensures var r := Tick(c, ms, f);
      && ((forall j :: 0 <= j < Voices ==> !VolumeWriter(c, ms, j)) ==> r.regs[VolumeReg] == c.regs[VolumeReg])
      && (forall j :: 0 <= j < Voices && VolumeWriter(c, ms, j)
                      && (forall k :: j < k < Voices ==> !VolumeWriter(c, ms, k)) ==>
            r.regs[VolumeReg] == Mask(OutVol(c.chans[j].vol, ms[j].vol)))
  {
    var c0 := TickChannel(c, 0, ms[0], f);
    var c1 := TickChannel(c0, 1, ms[1], f);
    var c2 := TickChannel(c1, 2, ms[2], f);
    var r := TickChannel(c2, 3, ms[3], f);
    TickVolumeStep(c, c, ms, f, 0);
    TickVolumeStep(c, c0, ms, f, 1);
    TickVolumeStep(c, c1, ms, f, 2);
    TickVolumeStep(c, c2, ms, f, 3);
    assert r == Tick(c, ms, f);
    if forall j :: 0 <= j < Voices ==> !VolumeWriter(c, ms, j) {
      assert !VolumeWriter(c, ms, 0) && !VolumeWriter(c, ms, 1);
      assert !VolumeWriter(c, ms, 2) && !VolumeWriter(c, ms, 3);
    }
    forall j | 0 <= j < Voices && VolumeWriter(c, ms, j) && (forall k :: j < k < Voices ==> !VolumeWriter(c, ms, k))
      ensures r.regs[VolumeReg] == Mask(OutVol(c.chans[j].vol, ms[j].vol))
    {
      if j < 3 { assert !VolumeWriter(c, ms, 3); }
      if j < 2 { assert !VolumeWriter(c, ms, 2); }
      if j < 1 { assert !VolumeWriter(c, ms, 1); }
    }
  }

  /** One voice's share of the tick on the volume register, for a state `d`
      whose voice `j` and mute flags are as they were before the tick. */
  lemma TickVolumeStep(c: Chip, d: Chip, ms: seq<Macro>, f: Freqs, j: nat)
    requires Valid(c) && Valid(d) && |ms| == Voices && j < Voices
    requires d.chans[j] == c.chans[j] && d.muted == c.muted
    ensures TickChannel(d, j, ms[j], f).regs[VolumeReg]
            == (if VolumeWriter(c, ms, j) then Mask(OutVol(c.chans[j].vol, ms[j].vol)) else d.regs[VolumeReg])
  {
    TickVolume(d, j, ms[j], f);
  }

  /** The whole tick keeps pending injections announced. */
  lemma TickConsistent(c: Chip, ms: seq<Macro>, f: Freqs)
    requires Valid(c) && Consistent(c) && |ms| == Voices
    ensures Consistent(Tick(c, ms, f))
  {
    var c0 := TickChannel(c, 0, ms[0], f);
    var c1 := TickChannel(c0, 1, ms[1], f);
    var c2 := TickChannel(c1, 2, ms[2], f);
    TickChannelConsistent(c, 0, ms[0], f);
    TickChannelConsistent(c0, 1, ms[1], f);
    TickChannelConsistent(c1, 2, ms[2], f);
    TickChannelConsistent(c2, 3, ms[3], f);
  }

  /** Voice `i`'s share of the tick depends only on its own record, its
      mute flag and its own frequency register. */
  lemma TickChannelLocal(c: Chip, d: Chip, i: nat, m: Macro, f: Freqs)
    requires Valid(c) && Valid(d) && i < Voices
    requires c.chans[i] == d.chans[i] && c.muted[i] == d.muted[i] && c.regs[FreqReg(i)] == d.regs[FreqReg(i)]
    ensures TickChannel(c, i, m, f).chans[i] == TickChannel(d, i, m, f).chans[i]
    ensures TickChannel(c, i, m, f).regs[FreqReg(i)] == TickChannel(d, i, m, f).regs[FreqReg(i)]
  {
    var c2 := MacroStep(c, i, m, f);
    var d2 := MacroStep(d, i, m, f);
    assert c2.chans[i] == d2.chans[i];
    if HasRequest(c2.chans[i]) {
      ServiceRequestsEffect(c2, i, f);
      ServiceRequestsEffect(d2, i, f);
    }
  }

  /** Within the tick, voice `i` ends exactly as its own share of the tick
      applied to the state before the tick leaves it. */
  lemma TickOn(c: Chip, ms: seq<Macro>, f: Freqs, i: nat)
    requires Valid(c) && |ms| == Voices && i < Voices
    ensures Tick(c, ms, f).chans[i] == TickChannel(c, i, ms[i], f).chans[i]
    ensures Tick(c, ms, f).regs[FreqReg(i)] == TickChannel(c, i, ms[i], f).regs[FreqReg(i)]
  {
    var c0 := TickChannel(c, 0, ms[0], f);
    var c1 := TickChannel(c0, 1, ms[1], f);
    var c2 := TickChannel(c1, 2, ms[2], f);
    if i == 1 {
      TickChannelLocal(c0, c, 1, ms[1], f);
    } else if i == 2 {
      TickChannelLocal(c1, c, 2, ms[2], f);
    } else if i == 3 {
      TickChannelLocal(c2, c, 3, ms[3], f);
    }
  }
}

=== FILE: trace.dfy ===
/** Runs of the sample loop: what a tone voice's frequency register holds
    sample by sample after the voice has been armed. */
module InjectionTrace {
  import opened Registers
  import opened Channels
  import opened Injector

  /** Output samples for which an armed voice is written: 548. */
  const ServicedSamples: nat := 548
  /** Of those, the drain phase: 520. */
  const DrainSamples: nat := 520
  /** The pattern phase: six bits, four samples each. */
  const PatternSamples: nat := 24

  /** The driver state after `n` output samples. */
  function Run(c: Chip, n: nat): (r: Chip)
    requires Valid(c)
    ensures Valid(r)
    ensures r.muted == c.muted
    ensures r.chans[3] == c.chans[3]
    decreases n
  {
    if n == 0 then c else InjectStep(Run(c, n - 1))
  }

  /** Running `m` then `n` samples is running `m + n`. */
  lemma {:induction false} RunAdd(c: Chip, m: nat, n: nat)
    requires Valid(c)
    ensures Run(Run(c, m), n) == Run(c, m + n)
    decreases n
  {
    if n > 0 {
      RunAdd(c, m, n - 1);
    }
  }

  /** The sample loop only ever moves a tone voice's countdown. */
  lemma {:induction false} RunFrame(c: Chip, i: nat, n: nat)
    requires Valid(c) && i < ToneVoices
    ensures Run(c, n).chans[i] == c.chans[i].(waveWriteCycle := Run(c, n).chans[i].waveWriteCycle)
    decreases n
  {
    if n > 0 {
      RunFrame(c, i, n - 1);
      InjectStepVoice(Run(c, n - 1), i);
    }
  }

  /** Every run keeps pending injections announced. */
  lemma {:induction false} RunConsistent(c: Chip, n: nat)
    requires Valid(c) && Consistent(c)
    ensures Consistent(Run(c, n))
    decreases n
  {
    if n > 0 {
      RunConsistent(c, n - 1);
      InjectStepConsistent(Run(c, n - 1));
    }
  }

  /** A pending voice counts down by 4 per sample, until it first drops
      below zero. */
  lemma {:induction false} RunCountdown(c: Chip, i: nat, n: nat)
    requires Valid(c) && Consistent(c) && i < ToneVoices
    requires c.chans[i].waveWriteCycle >= 0 && 4 * n <= c.chans[i].waveWriteCycle + SampDivider
    ensures Run(c, n).chans[i].waveWriteCycle == c.chans[i].waveWriteCycle - 4 * n
    decreases n
  {
    if n > 0 {
      var p := Run(c, n - 1);
      RunCountdown(c, i, n - 1);
      RunConsistent(c, n - 1);
      assert p.chans[i].waveWriteCycle >= 0;
      InjectStepVoice(p, i);
    }
  }

  /** A voice whose countdown is negative is never written again: neither
      its countdown nor its register moves. */
  lemma {:induction false} RunIdle(c: Chip, i: nat, n: nat)
    requires Valid(c) && i < ToneVoices && c.chans[i].waveWriteCycle < 0
    ensures Run(c, n).chans[i].waveWriteCycle == c.chans[i].waveWriteCycle
    ensures Run(c, n).regs[FreqReg(i)] == c.regs[FreqReg(i)]
    decreases n
  {
    if n > 0 {
      RunIdle(c, i, n - 1);
      InjectStepVoice(Run(c, n - 1), i);
    }
  }

  /** Voice `i` has just been armed. */
  predicate Armed(c: Chip, i: nat)
    requires Valid(c)
  {
    Consistent(c) && i < ToneVoices && c.chans[i].waveWriteCycle == ArmedCycle
  }

  /** An armed voice is written in exactly the first 548 samples. */
  lemma ArmedServiced(c: Chip, i: nat, k: nat)
    requires Valid(c) && Armed(c, i)
    ensures i < ToneVoices
    ensures Serviced(Run(c, k), i) <==> k < ServicedSamples
  {
    if k < ServicedSamples {
      RunCountdown(c, i, k);
      RunConsistent(c, k);
    } else {
      RunCountdown(c, i, ServicedSamples);
      RunIdle(Run(c, ServicedSamples), i, k - ServicedSamples);
      RunAdd(c, ServicedSamples, k - ServicedSamples);
    }
  }

  /** After `k` samples (1 <= k <= 548) the register holds what sample `k`
      wrote, at countdown `ArmedCycle - 4 * (k - 1)`. */
  lemma ArmedWrite(c: Chip, i: nat, k: nat)
    requires Valid(c) && Armed(c, i) && 1 <= k <= ServicedSamples
    ensures i < ToneVoices
    ensures Run(c, k).regs[FreqReg(i)]
      == InjectValue(i, ArmedCycle - 4 * (k - 1), c.chans[i].wave, c.chans[i].freq)
  {
    var p := Run(c, k - 1);
    assert Run(c, k) == InjectStep(p);
    ArmedServiced(c, i, k - 1);
    RunCountdown(c, i, k - 1);
    RunFrame(c, i, k - 1);
    assert p.chans[i].waveWriteCycle == ArmedCycle - 4 * (k - 1);
    assert p.chans[i].wave == c.chans[i].wave && p.chans[i].freq == c.chans[i].freq;
    InjectStepVoice(p, i);
  }

  /** Countdown and shift in the pattern phase: at the `j`-th pattern sample
      the shift is `2 + j / 4`. */
  lemma PatternShift(j: nat)
    requires j < PatternSamples
    ensures 16 <= 111 - 4 * j < DrainLimit
    ensures 8 - (111 - 4 * j) / 16 == 2 + j / 4
  {
    var q := j / 4;
    var r := j % 4;
    assert 111 - 4 * j == 16 * (6 - q) + (15 - 4 * r);
  }

  /** Samples 1..520 of an armed voice write the drain value. */
  lemma ArmedDrain(c: Chip, i: nat, k: nat)
    requires Valid(c) && Armed(c, i) && 1 <= k <= DrainSamples
    ensures i < ToneVoices
    ensures Run(c, k).regs[FreqReg(i)] == DrainValue
  {
    ArmedWrite(c, i, k);
    InjectPhases(i, ArmedCycle - 4 * (k - 1), c.chans[i].wave, c.chans[i].freq);
  }

  /** Samples 521..544 write the voice's load value with pattern bits 5
      down to 0 in the top bit, four samples per bit. */
  lemma ArmedPattern(c: Chip, i: nat, k: nat)
    requires Valid(c) && Armed(c, i) && DrainSamples < k <= DrainSamples + PatternSamples
    ensures i < ToneVoices
    ensures Run(c, k).regs[FreqReg(i)] % 128 == LoadFreq[i] as int
    ensures Run(c, k).regs[FreqReg(i)] / 128
         == Bit(WavePatterns[c.chans[i].wave], 5 - (k - DrainSamples - 1) / 4)
  {
    var j := k - DrainSamples - 1;
    var cycle := ArmedCycle - 4 * (k - 1);
    var w := c.chans[i].wave;
    assert cycle == 111 - 4 * j;
    ArmedWrite(c, i, k);
    var v := Run(c, k).regs[FreqReg(i)];
    assert v == InjectValue(i, cycle, w, c.chans[i].freq);
    PatternShift(j);
    var bit: nat := 7 - (8 - cycle / 16);
    assert bit == 5 - j / 4;
    InjectPattern(i, cycle, w, c.chans[i].freq);
    assert v / 128 == Bit(WavePatterns[w], bit);
  }

  /** Samples 545..548 write the voice's own `255 - freq`. */
  lemma ArmedFinal(c: Chip, i: nat, k: nat)
    requires Valid(c) && Armed(c, i) && DrainSamples + PatternSamples < k <= ServicedSamples
    ensures i < ToneVoices
    ensures Run(c, k).regs[FreqReg(i)] == 255 - c.chans[i].freq
  {
    var cycle := ArmedCycle - 4 * (k - 1);
    assert 0 <= cycle < 16;
    ArmedWrite(c, i, k);
    InjectPhases(i, cycle, c.chans[i].wave, c.chans[i].freq);
  }

  /** From sample 548 on the countdown rests at -1 and the register keeps
      `255 - freq` for ever. */
  lemma ArmedDone(c: Chip, i: nat, k: nat)
    requires Valid(c) && Armed(c, i) && k >= ServicedSamples
    ensures i < ToneVoices
    ensures Run(c, k).chans[i].waveWriteCycle == -1
    ensures Run(c, k).regs[FreqReg(i)] == 255 - c.chans[i].freq
  {
    ArmedFinal(c, i, ServicedSamples);
    RunCountdown(c, i, ServicedSamples);
    RunIdle(Run(c, ServicedSamples), i, k - ServicedSamples);
    RunAdd(c, ServicedSamples, k - ServicedSamples);
  }

  /** The whole trace of an armed voice: drain for samples 1..520, the six
      pattern bits for 521..544, `255 - freq` from 545 on for ever, and no
      write after sample 548. */
  lemma ArmedInjection(c: Chip, i: nat)
    requires Valid(c) && Armed(c, i)
    ensures i < ToneVoices
    ensures forall k :: 1 <= k <= DrainSamples ==> Run(c, k).regs[FreqReg(i)] == DrainValue
    ensures forall k :: DrainSamples < k <= DrainSamples + PatternSamples ==>
      && Run(c, k).regs[FreqReg(i)] % 128 == LoadFreq[i] as int
      && Run(c, k).regs[FreqReg(i)] / 128
         == Bit(WavePatterns[c.chans[i].wave], 5 - (k - DrainSamples - 1) / 4)
    ensures forall k :: k > DrainSamples + PatternSamples ==>
      Run(c, k).regs[FreqReg(i)] == 255 - c.chans[i].freq
    ensures forall k :: k >= 0 ==> (Serviced(Run(c, k), i) <==> k < ServicedSamples)
  {
    forall k | 1 <= k <= DrainSamples
      ensures Run(c, k).regs[FreqReg(i)] == DrainValue
    {
      ArmedDrain(c, i, k);
    }
    forall k | DrainSamples < k <= DrainSamples + PatternSamples
      ensures Run(c, k).regs[FreqReg(i)] % 128 == LoadFreq[i] as int
      ensures Run(c, k).regs[FreqReg(i)] / 128
         == Bit(WavePatterns[c.chans[i].wave], 5 - (k - DrainSamples - 1) / 4)
    {
      ArmedPattern(c, i, k);
    }
    forall k | k > DrainSamples + PatternSamples
      ensures Run(c, k).regs[FreqReg(i)] == 255 - c.chans[i].freq
    {
      if k <= ServicedSamples {
        ArmedFinal(c, i, k);
      } else {
        ArmedDone(c, i, k);
      }
    }
    forall k: nat
      ensures Serviced(Run(c, k), i) <==> k < ServicedSamples
    {
      ArmedServiced(c, i, k);
    }
  }
}

=== FILE: volume.dfy ===
/** Output volume: envelope scaling of the channel volume and the write of
    the shared volume register (`calcAndWriteOutVol`, `writeOutVol`). */
module Volume {
  import opened Registers
  import opened Channels

  const MaxVolume: int := 15

  /** C's `/` on `int`: the quotient rounded toward zero. */
  function CDiv(a: int, b: int): (q: int)
    requires b > 0
    ensures a >= 0 ==> q * b <= a < (q + 1) * b
    ensures a < 0 ==> (q - 1) * b < a <= q * b
  {
    if a >= 0 then a / b else -((-a) / b)
  }

  /** `MIN(vol*env/15, 15)`: capped at 15 from above, with no lower clamp. */
  function OutVol(vol: int, env: int): (o: int)
    ensures o <= MaxVolume
    ensures o <= CDiv(vol * env, 15)
    ensures o == MaxVolume || o == CDiv(vol * env, 15)
  {
    var scaled := CDiv(vol * env, 15);
    if scaled < MaxVolume then scaled else MaxVolume
  }

  /** An envelope never raises a volume in range above itself. */
  lemma OutVolInRange(vol: int, env: int)
    requires 0 <= vol <= MaxVolume && 0 <= env <= MaxVolume
    ensures 0 <= OutVol(vol, env) <= vol
  {
    assert vol * env <= vol * 15;
  }

  /** With the full-scale envelope the output volume is the volume itself,
      capped at 15; a negative volume passes through unclamped. */
  lemma OutVolFullScale(vol: int)
    ensures OutVol(vol, MaxVolume) == if vol < MaxVolume then vol else MaxVolume
  {
    assert vol * 15 == 15 * vol;
    if vol < 0 {
      assert (-(vol * 15)) / 15 == -vol;
    } else {
      assert (vol * 15) / 15 == vol;
    }
  }

  /** `writeOutVol`: the volume register receives the channel's output volume
      unless the channel is muted; nothing else changes. */
  function WriteOutVol(c: Chip, ch: nat): (r: Chip)
    requires Valid(c) && ch < Voices
    ensures Valid(r)
    ensures r.chans == c.chans && r.muted == c.muted && r.hasWaveWrite == c.hasWaveWrite
    ensures r.regs[VolumeReg] == (if c.muted[ch] then c.regs[VolumeReg] else Mask(c.chans[ch].outVol))
    ensures forall a :: 0 <= a < Size && a != VolumeReg ==> r.regs[a] == c.regs[a]
  {
    if !c.muted[ch] then WriteReg(c, VolumeReg, c.chans[ch].outVol) else c
  }

  /** `calcAndWriteOutVol`: recompute the output volume of channel `ch` for
      the envelope value `env`, then write it. */
  function CalcAndWriteOutVol(c: Chip, ch: nat, env: int): (r: Chip)
    requires Valid(c) && ch < Voices
    ensures Valid(r)
    ensures r.chans[ch] == c.chans[ch].(outVol := OutVol(c.chans[ch].vol, env))
    ensures forall j :: 0 <= j < Voices && j != ch ==> r.chans[j] == c.chans[j]
    ensures r.muted == c.muted && r.hasWaveWrite == c.hasWaveWrite
    ensures r.regs[VolumeReg] == (if c.muted[ch] then c.regs[VolumeReg] else Mask(OutVol(c.chans[ch].vol, env)))
    ensures forall a :: 0 <= a < Size && a != VolumeReg ==> r.regs[a] == c.regs[a]
  {
    var chan := c.chans[ch];
    WriteOutVol(SetChan(c, ch, chan.(outVol := OutVol(chan.vol, env))), ch)
  }
}
